=== FILE: README.md ===
# DynamicAccessor name-resolution engine in Dafny

This project models the core of the C# library DynamicAccessor. The library wraps an
arbitrary object in a dynamic accessor. Through the accessor you can read and write
fields and properties by name, walk chains of names with string indexers, convert the
object to another type, and call methods, including generic methods with explicit type
arguments. Names are resolved against the type's hierarchy through a per-type
reflection cache.

The model is functional. .NET reflection becomes a small universe of values:

- `TypeDesc` is a runtime type. Its base chain is nested, so it is finite by construction.
- `MemberDesc` is a field, property or other member.
- `MethodDesc` is a method.
- `Heap` maps addresses to objects and their member slots.

The process-wide `ConcurrentDictionary` caches become a `Cache` value that each lookup
receives and returns. `Coherent` is the invariant that every cache entry equals what the
list builder computes. Everything the engine asks of the platform is a field of `Host`,
an uninterpreted oracle:

- `IsAssignableFrom`
- `Type.GetMethod` overload resolution
- `MakeGenericMethod`
- `MethodInfo.Invoke`
- `Convert.ChangeType`

An oracle that throws is modelled as `None` or `LookupFailed`.

Modules follow the source files:

- `Universe`: the types, the heap and the oracles.
- `TypeExtensions`
- `MemberInfoExtensions`
- `ReflectionCache`
- `Accessors`: the handles.
- `DynamicMethodAccessor`
- `DynamicObjectAccessor`

## Assumptions and divergences

- **Effective type.** The object accessor constructor (`DynamicAccessor/DynamicObjectAccessor.cs:32`)
  passes a type override to its base. It resolves names against `this.Type`
  (lines 212 and 247). The base class `DynamicAccessor/DynamicAccessor.cs:28-44` has neither
  that constructor nor that property. The model takes the evident meaning:
  - the effective type is the override when one was given, else the runtime type of the object (`Accessors.EffectiveType`);
  - a method accessor is always built without an override, so it resolves against the runtime type.
- **In these points the model follows the code as written:**
  - Member and method lists are plain concatenations over the base chain. Duplicates are not removed. A more derived declaration shadows only because lookup takes the first match (`ReflectionCache.MostDerivedDeclarationWins`).
  - `GetMethod` ignores `useCache` and never touches the cache.
  - In the non-generic invoke path, an exception from overload resolution or from the invoked method escapes to the caller. This is `Raised`; it is not a "not found" result. Only the generic path swallows failures.
  - The generic slot check tests each entry of `GetGenericArguments()` directly for assignability. It does not test that entry's constraint types. In .NET every entry of a generic method definition is a generic parameter, so this check always passes there; the model does not force this, and a slot given as a named type is checked for assignability.
  - A non-null invocation result is wrapped by an accessor that uses the cache (the constructor default). This holds whatever the calling accessor's setting is. A get wraps member values with the caller's setting.

## Model

| member | source | states |
|---|---|---|
| TypeExtensions.AllMethods | DynamicAccessor/Extensions/TypeExtensions.cs:35-52 | the method list of each level of the base chain, most derived first, ending at the root; the type's own methods are the prefix |
| TypeExtensions.AllMethodsNamed | DynamicAccessor/Extensions/TypeExtensions.cs:61-81 | the per-level name filter equals filtering the whole walk by name, order kept |
| TypeExtensions.AllMembers | DynamicAccessor/Extensions/TypeExtensions.cs:87-102 | the type's declared-only members, then every ancestor's member list, nearest ancestor first |
| TypeExtensions.IsNullable | DynamicAccessor/Extensions/TypeExtensions.cs:150-171 | nullable exactly when the type is a reference type or a construction of `Nullable<>` |
| MemberInfoExtensions.GetValue | DynamicAccessor/Extensions/MemberInfoExtensions.cs:35-43 | a field or property yields its current slot value; any other member kind throws |
| MemberInfoExtensions.TrySetValue | DynamicAccessor/Extensions/MemberInfoExtensions.cs:52-121 | succeeds exactly when the member is a field or a writable property and the value is null into a nullable type or of an assignable runtime type; only success writes, and it writes that slot |
| MemberInfoExtensions.ReadAfterWrite | DynamicAccessor/Extensions/MemberInfoExtensions.cs:69-80 | after a successful set the member reads back the value; every other slot of every object, and every runtime type, is unchanged |
| MemberInfoExtensions.WritePreservesValidHeap | DynamicAccessor/Extensions/MemberInfoExtensions.cs:76-80 | a set stores only live references, so a closed heap stays closed |
| MemberInfoExtensions.NullIntoNullable | DynamicAccessor/Extensions/MemberInfoExtensions.cs:69-74 | null into a writable member of nullable type succeeds and reads back as null |
| MemberInfoExtensions.NullIntoValueTypeFails | DynamicAccessor/Extensions/MemberInfoExtensions.cs:69-82 | null into a member of a non-nullable value type fails and leaves the heap unchanged |
| MemberInfoExtensions.ReadOnlyNeverWritten | DynamicAccessor/Extensions/MemberInfoExtensions.cs:92-119 | a get-only property, or a member that is neither field nor property, is never written, whatever the value |
| MemberInfoExtensions.PropertyFollowsFieldRules | DynamicAccessor/Extensions/MemberInfoExtensions.cs:98-114 | a writable property accepts exactly what a field of the same declared type accepts |
| ReflectionCache.GetOrAdd | DynamicAccessor/ReflectionCache.cs:55-57 | an existing entry is returned and never replaced; a missing one is installed with the built value; no other key changes |
| ReflectionCache.FieldsAndProperties | DynamicAccessor/ReflectionCache.cs:112-113 | holds exactly the fields and properties of the hierarchy member list |
| ReflectionCache.MemberList | DynamicAccessor/ReflectionCache.cs:55-57 | uncached: the builder's list and the cache untouched; cached: the table grows by at most this type; a coherent cache stays coherent and yields the builder's list |
| ReflectionCache.MethodList | DynamicAccessor/ReflectionCache.cs:71-73 | the same for the method table and the hierarchy method list |
| ReflectionCache.GetMember | DynamicAccessor/ReflectionCache.cs:53-60 | from a coherent cache, the first field or property of the hierarchy list with that name; the member table grows by at most this type |
| ReflectionCache.HasMethod | DynamicAccessor/ReflectionCache.cs:69-76 | from a coherent cache, true exactly when some hierarchy method has that name |
| ReflectionCache.GetMethods | DynamicAccessor/ReflectionCache.cs:98-105 | from a coherent cache, the hierarchy methods with that name in list order |
| ReflectionCache.GetMethod | DynamicAccessor/ReflectionCache.cs:86-89 | the host's overload resolution, with the cache neither read nor written |
| ReflectionCache.GetMethodIgnoresCache | DynamicAccessor/ReflectionCache.cs:86-89 | the answer does not depend on `useCache` or on the cache contents |
| ReflectionCache.EmptyCacheCoherent | DynamicAccessor/ReflectionCache.cs:40-44 | the caches as the process starts satisfy the coherence invariant |
| ReflectionCache.CacheTransparent | DynamicAccessor/ReflectionCache.cs:53-105 | from a coherent cache, cached and uncached lookups give identical answers, and the cached path keeps coherence |
| ReflectionCache.HasMethodIffGetMethods | DynamicAccessor/ReflectionCache.cs:69-105 | `HasMethod` holds exactly when `GetMethods` is non-empty, with the same cache effect |
| ReflectionCache.MemberListHoldsDataMembers | DynamicAccessor/ReflectionCache.cs:112-113 | every entry of a member list is a field or property |
| ReflectionCache.DataMembersAppend | DynamicAccessor/ReflectionCache.cs:112-113 | the field-and-property filter distributes over concatenation |
| ReflectionCache.MostDerivedDeclarationWins | DynamicAccessor/Extensions/TypeExtensions.cs:87-102 | a field or property declared on the type hides inherited ones of that name; only when none is declared is the first inherited match found |
| Accessors.EffectiveType | DynamicAccessor/DynamicObjectAccessor.cs:32 | names resolve against the override when one was given, else the object's runtime type |
| Accessors.Wrap | DynamicAccessor/DynamicObjectAccessor.cs:219-221 | null stays null; anything else is wrapped in a new object accessor without override and with the given cache setting |
| DynamicMethodAccessor.ArgTypes | DynamicAccessor/DynamicMethodAccessor.cs:63 | no array gives no types; otherwise one entry per argument, null exactly for null arguments, else the argument's runtime type |
| DynamicMethodAccessor.Candidates | DynamicAccessor/DynamicMethodAccessor.cs:87-172 | exactly the generic method definitions with matching parameter and slot counts whose every parameter and every slot passes its check |
| DynamicMethodAccessor.CandidatesAppend | DynamicAccessor/DynamicMethodAccessor.cs:92-172 | the filter keeps the order reflection lists the methods in: it distributes over concatenation |
| DynamicMethodAccessor.FirstSuccess | DynamicAccessor/DynamicMethodAccessor.cs:174-190 | none exactly when every trial fails; otherwise the trial of some candidate all of whose predecessors failed |
| DynamicMethodAccessor.Completed | DynamicAccessor/DynamicMethodAccessor.cs:71-75 | a completed call reports its heap; a null return value gives a null result, and any other is wrapped in a new object accessor over it that uses the cache and has no override |
| DynamicMethodAccessor.TryInvokeInternal | DynamicAccessor/DynamicMethodAccessor.cs:61-195 | without type arguments: nothing invoked exactly when resolution finds no overload, a completed call exactly when it finds one whose invocation completes (the result is that invocation's), an exception otherwise, and the cache is untouched; with type arguments: never raises, nothing invoked exactly when every candidate's trial fails, else the first successful trial, and the method table grows by at most the target type |
| DynamicMethodAccessor.CandidatesUseOnlyAssignability | DynamicAccessor/DynamicMethodAccessor.cs:109-164 | the candidate filter consults only the assignability relation |
| DynamicMethodAccessor.FirstSuccessUsesOnlyTrials | DynamicAccessor/DynamicMethodAccessor.cs:174-190 | the trial loop consults only instantiation and invocation |
| DynamicMethodAccessor.GenericBranchIgnoresOverloadResolution | DynamicAccessor/DynamicMethodAccessor.cs:78-191 | with type arguments, the host's non-generic overload resolution is never consulted |
| DynamicMethodAccessor.NonGenericBranchIgnoresInstantiation | DynamicAccessor/DynamicMethodAccessor.cs:65-77 | without type arguments, generic instantiation is never attempted |
| DynamicMethodAccessor.UnknownNameNotInvoked | DynamicAccessor/DynamicMethodAccessor.cs:87-194 | a generic call of a name no hierarchy method carries invokes nothing |
| DynamicObjectAccessor.TryGetMember | DynamicAccessor/DynamicObjectAccessor.cs:210-236 | a field or property of that name wins and yields its wrapped value (null is a success); else a method of that name yields a bound method handle; else failure with a null result; an object result keeps the caller's cache setting; an accessor that does not use the cache leaves it unchanged, and one that does adds the effective type's member entry and at most its method entry, replacing nothing |
| DynamicObjectAccessor.TrySetMember | DynamicAccessor/DynamicObjectAccessor.cs:245-257 | with no field or property of that name (even a method's name) the set fails and changes nothing; otherwise it succeeds exactly when the member is writable and accepts the value, writing that slot; an accessor that does not use the cache leaves it unchanged, and one that does adds only the effective type's member entry, replacing nothing |
| DynamicObjectAccessor.TryGetIndex | DynamicAccessor/DynamicObjectAccessor.cs:67-104 | no keys or a non-string first key fail with a null result and no cache effect; one key is the get of that name; an accessor that does not use the cache leaves it unchanged on every path, and no path removes or replaces a cache entry |
| DynamicObjectAccessor.TrySetIndex | DynamicAccessor/DynamicObjectAccessor.cs:124-158 | no keys or a non-string first key fail without effect; one key is the set of that name; every failure leaves the heap unchanged; an accessor that does not use the cache leaves it unchanged on every path, and no path removes or replaces a cache entry |
| DynamicObjectAccessor.GetPathCons | DynamicAccessor/DynamicObjectAccessor.cs:88-102 | the fold of gets from the end of the path agrees with the step-first recursion |
| DynamicObjectAccessor.GetIndexIsFold | DynamicAccessor/DynamicObjectAccessor.cs:82-103 | a multi-key get equals the left-to-right fold of gets, short-circuiting when a step fails or yields no object accessor |
| DynamicObjectAccessor.GetIndexNonStringKeyFails | DynamicAccessor/DynamicObjectAccessor.cs:75-80 | a non-string key at any depth makes the multi-key get fail with a null result |
| DynamicObjectAccessor.SetPathCons | DynamicAccessor/DynamicObjectAccessor.cs:143-156 | the reference chained set agrees with the step-first recursion |
| DynamicObjectAccessor.SetIndexIsGetThenSet | DynamicAccessor/DynamicObjectAccessor.cs:137-157 | a multi-key set folds gets over all but the last name, with the same short-circuit, then sets the last name on the final accessor |
| DynamicObjectAccessor.SetIndexNonStringKeyFails | DynamicAccessor/DynamicObjectAccessor.cs:131-135 | a non-string key at any depth makes the multi-key set fail without changing the heap |
| DynamicObjectAccessor.SetThenGet | DynamicAccessor/DynamicObjectAccessor.cs:245-257 | after a successful set of a name, a get of that name on the same accessor yields the assigned value |
| DynamicObjectAccessor.TryConvert | DynamicAccessor/DynamicObjectAccessor.cs:166-187 | an instance of the target type (by runtime type, not override) is returned unchanged; otherwise it succeeds exactly when the host conversion does, with its value, and a failure gives null |
| DynamicObjectAccessor.TryInvokeMember | DynamicAccessor/DynamicObjectAccessor.cs:196-201 | keeps coherence, leaves the cache untouched without type arguments, and never raises with them |
| DynamicObjectAccessor.InvokeIgnoresOverride | DynamicAccessor/DynamicObjectAccessor.cs:199 | the type override never changes what an invocation does, because the method accessor is built over the bare object |

## Left out

- `BinderExtensions` (reading generic type arguments from the runtime binder through private reflection) is a foreign call. The type arguments are an input of the invoke operations.
- The `DynamicObject` hook overrides (`TryGetMember`, `TrySetMember` and `TryInvoke` as the runtime binder calls them) only forward to the modelled operations.
- `DynamicObjectAccessor.Create` and construction over a null object are not modelled. An accessor always wraps a live object.
- Host behaviour is uninterpreted:
  - `IsAssignableFrom`;
  - overload resolution in `Type.GetMethod`;
  - `MakeGenericMethod` and `MethodInfo.Invoke`;
  - `Convert.ChangeType`.
- A call that throws part-way through a method body may leave side effects; the model reports only `Raised` or a skipped trial, with no heap change.
- Properties are modelled as plain storage slots. Getters and setters with side effects, and boxing copies of value-type objects, are not modelled.
- A type override that the wrapped object is not an instance of: the model reads or writes the slot of the member found on the override, where .NET's `GetValue`/`SetValue` throw because the object is of an unrelated type.
- Slots are keyed by the member as reflection reports it, including its declaring type. A virtual or interface property seen through an override and the same property seen through the runtime type are therefore two slots in the model, while .NET dispatches both to one implementation; a set through one accessor is not visible through the other.
- Properties that cannot be read, and indexers: every property is treated as readable and parameterless. .NET's `GetValue` on a set-only property, and `GetValue`/`SetValue` on an indexer property (`Item`), throw and the exception escapes the get or set; the model instead reads or writes a slot and reports success.
- `out` parameters in the generic path: .NET reports an `out` parameter's type as a by-reference type, which never equals an argument's runtime type, so a generic method with an `out` parameter is never a candidate. The model compares the declared type as given, and does not force that outcome.
- Null arguments in the non-generic path: `Type.GetMethod` throws on a null entry in the argument types, so every non-generic call with a null argument raises. The model leaves this to the overload-resolution oracle, which may answer `LookupFailed`; it does not force it.
- Thread safety of the concurrent caches is not modelled. The cache is threaded sequentially. A lost race still installs one builder-equal entry, which `Coherent` covers.
- `TypeExtensions.GetMethodEx` is not modelled, because nothing in the core calls it. Its parameter-count check (an empty `if`) and its assignability loop (a `continue` of the inner loop) have no effect. Only the generic-argument count filters candidates. Both loops run to the parameter count, so they index `parameterTypes` and the generic arguments past their ends when those are shorter.
- Binding-flag semantics (public, non-public, instance, declared-only) are not modelled. The lists a host reports for a type under the library's flags are data of `TypeDesc`.
- The `is not FieldInfo` / `is not PropertyInfo` failure branches of `TrySetValue` cannot be taken for members that reflection reports, so they are not modelled.
- DynamicObjectAccessor.TryInvokeMember: its contract states only the delegation-level facts; the full outcome is stated by `DynamicMethodAccessor.TryInvokeInternal`, which it calls unchanged.
- Default values of value-type members: a slot missing from an object reads as null. In .NET an unassigned value-type field reads as its default (a boxed zero), which a get wraps. Heaps are assumed to hold a slot for every value-type member; the model does not enforce this.
- DynamicObjectAccessor.TryConvert: the conversion oracle returns a value but no heap, so an object `Convert.ChangeType` allocates is not added to the heap, and the result may refer to an address outside it.

=== FILE: accessors.dfy ===
/** The accessor handles of `DynamicAccessor`: an object accessor wraps a live object (with
    an optional type to resolve names against), a method accessor wraps an object and a
    method name. Producing a handle allocates nothing the model tracks. */
module Accessors {
  import opened Wrappers
  import opened Universe

  /** A `DynamicObjectAccessor`: the wrapped object, whether lookups use the cache, and
      the type override given at construction, if any. */
  datatype ObjectAccessor = ObjectAccessor(obj: Addr, useCache: bool, treatAs: Option<TypeDesc>)

  /** A `DynamicMethodAccessor`: the wrapped object and the name of the method to call. */
  datatype MethodAccessor = MethodAccessor(obj: Addr, methodName: string, useCache: bool)

  /** What a get or an invocation hands back when it has a non-null result. */
  datatype Handle = ObjectHandle(accessor: ObjectAccessor) | MethodHandle(bound: MethodAccessor)

  /** The type names are resolved against: the override when one was given, otherwise the
      runtime type of the wrapped object. */
  function EffectiveType(acc: ObjectAccessor, heap: Heap): (r: TypeDesc)
    requires acc.obj in heap
    ensures acc.treatAs.Some? ==> r == acc.treatAs.value
    ensures acc.treatAs.None? ==> r == heap[acc.obj].runtimeType
  {
    match acc.treatAs
    case Some(t) => t
    case None => heap[acc.obj].runtimeType
  }

  /** The type a method accessor resolves against: always the runtime type, since a method
      accessor is never built with an override. */
  function MethodTarget(acc: MethodAccessor, heap: Heap): TypeDesc
    requires acc.obj in heap
  {
    heap[acc.obj].runtimeType
  }

  /** A non-null value wrapped in a fresh object accessor without override; null stays
      null. */
  function Wrap(v: Value, useCache: bool): (r: Option<Handle>)
    ensures r.None? <==> v.Null?
    ensures v.Ref? ==> r == Some(ObjectHandle(ObjectAccessor(v.addr, useCache, None)))
  {
    match v
    case Null => None
    case Ref(a) => Some(ObjectHandle(ObjectAccessor(a, useCache, None)))
  }
}

=== FILE: dynamic_method_accessor.dfy ===
/** `DynamicMethodAccessor.TryInvokeInternal`: non-generic calls go to the host's overload
    resolution; generic calls filter the same-named generic method definitions by counts
    and per-position rules, then try to instantiate and invoke each survivor in
    the order reflection lists them, keeping the first success. */
module DynamicMethodAccessor {
  import opened Wrappers
  import opened Universe
  import opened TypeExtensions
  import opened ReflectionCache
  import opened Accessors

  /** Every argument is null or refers to a live object. */
  predicate LiveArgs(args: Option<seq<Value>>, heap: Heap) {
    args.Some? ==> forall i :: 0 <= i < |args.value| ==> Live(args.value[i], heap)
  }

  /** The runtime types of the arguments: none for a null array, and a null entry for each
      null argument. */
  function ArgTypes(args: Option<seq<Value>>, heap: Heap): (r: seq<Option<TypeRef>>)
    requires LiveArgs(args, heap)
    ensures args.None? ==> r == []
    ensures args.Some? ==> |r| == |args.value|
    ensures args.Some? ==> forall i :: 0 <= i < |r| ==> (r[i].None? <==> args.value[i].Null?)
    ensures args.Some? ==> forall i :: 0 <= i < |r| && args.value[i].Ref? ==>
                             r[i] == Some(heap[args.value[i].addr].runtimeType.key)
  {
    match args
    case None => []
    case Some(vs) => seq(|vs|, i requires 0 <= i < |vs| && Live(vs[i], heap) => TypeOfValue(vs[i], heap))
  }

  /** The check of one formal parameter against the runtime type of its argument: an open
      generic parameter always passes, an `out` parameter needs exactly the same type, any
      other parameter must be assignable from the argument's type. */
  predicate ParameterAccepts(host: Host, p: ParamDesc, argType: Option<TypeRef>) {
    if p.paramType.IsGenericParameter() then true
    else if p.isOut then argType == Some(p.paramType)
    else IsAssignableFrom(host, p.paramType, argType)
  }

  /** The check of one generic slot against its type argument: a slot that is a generic
      parameter passes without looking at the argument; any other slot must be assignable
      from it. */
  predicate SlotAccepts(host: Host, slot: TypeRef, typeArg: TypeRef) {
    if slot.IsGenericParameter() then true
    else IsAssignableFrom(host, slot, Some(typeArg))
  }

  /** A method that survives the candidate filter. */
  predicate IsCandidate(host: Host, m: MethodDesc, argTypes: seq<Option<TypeRef>>, typeArgs: seq<TypeRef>) {
    && m.isGenericMethodDefinition
    && |m.parameters| == |argTypes|
    && |m.genericSlots| == |typeArgs|
    && (forall i :: 0 <= i < |argTypes| ==> ParameterAccepts(host, m.parameters[i], argTypes[i]))
    && (forall i :: 0 <= i < |typeArgs| ==> SlotAccepts(host, m.genericSlots[i], typeArgs[i]))
  }

  /** The candidate filter over `ms`: exactly the candidates, in their original order. */
  function Candidates(host: Host, ms: seq<MethodDesc>, argTypes: seq<Option<TypeRef>>, typeArgs: seq<TypeRef>)
    : (r: seq<MethodDesc>)
    ensures forall m :: m in r <==> m in ms && IsCandidate(host, m, argTypes, typeArgs)
    ensures |r| <= |ms|
  {
    if ms == [] then []
    else
      (if IsCandidate(host, ms[0], argTypes, typeArgs) then [ms[0]] else [])
      + Candidates(host, ms[1..], argTypes, typeArgs)
  }

  /** The filter keeps list order: it distributes over concatenation. */
  lemma {:induction false} CandidatesAppend(host: Host, a: seq<MethodDesc>, b: seq<MethodDesc>,
                                            argTypes: seq<Option<TypeRef>>, typeArgs: seq<TypeRef>)
    ensures Candidates(host, a + b, argTypes, typeArgs)
         == Candidates(host, a, argTypes, typeArgs) + Candidates(host, b, argTypes, typeArgs)
    decreases |a|
  {
    if a == [] {
      assert a + b == b;
    } else {
      assert (a + b)[0] == a[0];
      assert (a + b)[1..] == a[1..] + b;
      CandidatesAppend(host, a[1..], b, argTypes, typeArgs);
    }
  }

  /** One trial: instantiate `m` with the type arguments, then invoke the instantiation.
      `None` when either step throws. */
  function Trial(host: Host, m: MethodDesc, typeArgs: seq<TypeRef>, obj: Addr, args: Option<seq<Value>>, heap: Heap)
    : Option<Invoked>
  {
    match host.makeGeneric(m, typeArgs)
    case None => None
    case Some(g) => host.invoke(g, obj, args, heap)
  }

  /** The trial loop: the first candidate, in list order, whose trial succeeds; earlier
      failures are swallowed, and an exhausted list gives `None`. */
  function FirstSuccess(host: Host, cs: seq<MethodDesc>, typeArgs: seq<TypeRef>, obj: Addr,
                        args: Option<seq<Value>>, heap: Heap): (r: Option<Invoked>)
    ensures r.None? <==> forall k :: 0 <= k < |cs| ==> Trial(host, cs[k], typeArgs, obj, args, heap).None?
    ensures r.Some? ==> exists k :: 0 <= k < |cs| && r == Trial(host, cs[k], typeArgs, obj, args, heap)
                          && forall j :: 0 <= j < k ==> Trial(host, cs[j], typeArgs, obj, args, heap).None?
  {
    if cs == [] then None
    else
      var first := Trial(host, cs[0], typeArgs, obj, args, heap);
      if first.Some? then first
      else
        var rest := FirstSuccess(host, cs[1..], typeArgs, obj, args, heap);
        assert forall k :: 1 <= k < |cs| ==> cs[k] == cs[1..][k - 1];
        rest
  }

  /** What an invocation reports: a completed call with its wrapped result, no applicable
      method (false with a null result), or an exception that escapes to the caller. */
  datatype InvokeOutcome =
    | Returned(result: Option<Handle>, heap: Heap, cache: Cache)
    | NotInvoked(cache: Cache)
    | Raised(cache: Cache)

  /** A completed call: a non-null return value is wrapped in an object accessor that uses
      the cache (the default), whatever the calling accessor's setting. */
  function Completed(inv: Invoked, cache: Cache): (r: InvokeOutcome)
    ensures r.Returned? && r.heap == inv.heap && r.cache == cache
    ensures r.result.None? <==> inv.result.Null?
    ensures r.result == Wrap(inv.result, true)
  {
    Returned(Wrap(inv.result, true), inv.heap, cache)
  }

  /** The generic candidates for a call of `name` on `t`. */
  function GenericCandidates(host: Host, t: TypeDesc, name: string, argTypes: seq<Option<TypeRef>>, typeArgs: seq<TypeRef>)
    : seq<MethodDesc>
  {
    Candidates(host, MethodsNamed(AllMethods(t), name), argTypes, typeArgs)
  }

  /** `TryInvokeInternal`. */
  function TryInvokeInternal(host: Host, acc: MethodAccessor, args: Option<seq<Value>>, typeArgs: seq<TypeRef>,
                             heap: Heap, cache: Cache): (r: InvokeOutcome)
    requires acc.obj in heap && LiveArgs(args, heap) && Coherent(cache)
    ensures Coherent(r.cache)
    // With no type arguments only the host's overload resolution runs; the cache is untouched.
    ensures |typeArgs| == 0 ==> r.cache == cache
    ensures |typeArgs| == 0 ==>
      (r.NotInvoked? <==> host.getMethod(MethodTarget(acc, heap), acc.methodName, ArgTypes(args, heap)).NoMatch?)
    ensures |typeArgs| == 0 ==>
      var found := host.getMethod(MethodTarget(acc, heap), acc.methodName, ArgTypes(args, heap));
      && (r.Returned? <==> found.Match? && host.invoke(found.found, acc.obj, args, heap).Some?)
      && (r.Returned? ==> r == Completed(host.invoke(found.found, acc.obj, args, heap).value, cache))
    // With type arguments only the generic branch runs, and it never lets an exception out.
    ensures |typeArgs| > 0 ==> !r.Raised?
    // The generic branch reads the method table, which grows by at most this type.
    ensures |typeArgs| > 0 && !acc.useCache ==> r.cache == cache
    ensures |typeArgs| > 0 && acc.useCache ==>
      GrowsBy(cache.methods, r.cache.methods, MethodTarget(acc, heap)) && r.cache.members == cache.members
    ensures |typeArgs| > 0 ==>
      var cs := GenericCandidates(host, MethodTarget(acc, heap), acc.methodName, ArgTypes(args, heap), typeArgs);
      && (r.NotInvoked? <==> forall k :: 0 <= k < |cs| ==> Trial(host, cs[k], typeArgs, acc.obj, args, heap).None?)
      && (r.Returned? ==>
            exists k :: && 0 <= k < |cs|
                        && Trial(host, cs[k], typeArgs, acc.obj, args, heap).Some?
                        && r == Completed(Trial(host, cs[k], typeArgs, acc.obj, args, heap).value, r.cache)
                        && forall j :: 0 <= j < k ==> Trial(host, cs[j], typeArgs, acc.obj, args, heap).None?)
  {
    var t := MethodTarget(acc, heap);
    var argTypes := ArgTypes(args, heap);
    if |typeArgs| == 0 then
      var lookup := GetMethod(host, t, acc.methodName, argTypes, acc.useCache, cache);
      match lookup.value
      case Match(m) =>
        (match host.invoke(m, acc.obj, args, heap)
         case Some(inv) => Completed(inv, lookup.cache)
         case None => Raised(lookup.cache))
      case NoMatch => NotInvoked(lookup.cache)
      case LookupFailed => Raised(lookup.cache)
    else
      var named := GetMethods(t, acc.methodName, acc.useCache, cache);
      var cs := Candidates(host, named.value, argTypes, typeArgs);
      match FirstSuccess(host, cs, typeArgs, acc.obj, args, heap)
      case Some(inv) => Completed(inv, named.cache)
      case None => NotInvoked(named.cache)
  }

  /** The candidate filter consults only the host's assignability relation. */
  lemma {:induction false} CandidatesUseOnlyAssignability(h1: Host, h2: Host, ms: seq<MethodDesc>,
                                                          argTypes: seq<Option<TypeRef>>, typeArgs: seq<TypeRef>)
    requires h1.assignable == h2.assignable
    ensures Candidates(h1, ms, argTypes, typeArgs) == Candidates(h2, ms, argTypes, typeArgs)
    decreases |ms|
  {
    if ms != [] {
      assert IsCandidate(h1, ms[0], argTypes, typeArgs) == IsCandidate(h2, ms[0], argTypes, typeArgs) by {
        assert forall i :: 0 <= i < |typeArgs| && i < |ms[0].genericSlots| ==>
          SlotAccepts(h1, ms[0].genericSlots[i], typeArgs[i]) == SlotAccepts(h2, ms[0].genericSlots[i], typeArgs[i]);
        assert forall i :: 0 <= i < |argTypes| && i < |ms[0].parameters| ==>
          ParameterAccepts(h1, ms[0].parameters[i], argTypes[i]) == ParameterAccepts(h2, ms[0].parameters[i], argTypes[i]);
      }
      CandidatesUseOnlyAssignability(h1, h2, ms[1..], argTypes, typeArgs);
    }
  }

  /** The trial loop consults only instantiation and invocation. */
  lemma {:induction false} FirstSuccessUsesOnlyTrials(h1: Host, h2: Host, cs: seq<MethodDesc>, typeArgs: seq<TypeRef>,
                                                      obj: Addr, args: Option<seq<Value>>, heap: Heap)
    requires h1.makeGeneric == h2.makeGeneric && h1.invoke == h2.invoke
    ensures FirstSuccess(h1, cs, typeArgs, obj, args, heap) == FirstSuccess(h2, cs, typeArgs, obj, args, heap)
    decreases |cs|
  {
    if cs != [] {
      FirstSuccessUsesOnlyTrials(h1, h2, cs[1..], typeArgs, obj, args, heap);
    }
  }

  /** With type arguments, the host's non-generic overload resolution is never consulted. */
  lemma GenericBranchIgnoresOverloadResolution(
    host: Host, getMethod: (TypeDesc, string, seq<Option<TypeRef>>) -> OverloadLookup,
    acc: MethodAccessor, args: Option<seq<Value>>, typeArgs: seq<TypeRef>, heap: Heap, cache: Cache)
    requires acc.obj in heap && LiveArgs(args, heap) && Coherent(cache) && |typeArgs| > 0
    ensures TryInvokeInternal(host, acc, args, typeArgs, heap, cache)
         == TryInvokeInternal(host.(getMethod := getMethod), acc, args, typeArgs, heap, cache)
  {
    var h2 := host.(getMethod := getMethod);
    var named := GetMethods(MethodTarget(acc, heap), acc.methodName, acc.useCache, cache);
    var argTypes := ArgTypes(args, heap);
    CandidatesUseOnlyAssignability(host, h2, named.value, argTypes, typeArgs);
    FirstSuccessUsesOnlyTrials(host, h2, Candidates(host, named.value, argTypes, typeArgs), typeArgs, acc.obj, args, heap);
  }

  /** Without type arguments, generic instantiation is never attempted. */
  lemma NonGenericBranchIgnoresInstantiation(
    host: Host, makeGeneric: (MethodDesc, seq<TypeRef>) -> Option<MethodDesc>,
    acc: MethodAccessor, args: Option<seq<Value>>, heap: Heap, cache: Cache)
    requires acc.obj in heap && LiveArgs(args, heap) && Coherent(cache)
    ensures TryInvokeInternal(host, acc, args, [], heap, cache)
         == TryInvokeInternal(host.(makeGeneric := makeGeneric), acc, args, [], heap, cache)
  {
  }

  /** A generic call of a name that no method of the hierarchy carries finds no candidate
      and reports that nothing was invoked, leaving the heap as it was. */
  lemma UnknownNameNotInvoked(host: Host, acc: MethodAccessor, args: Option<seq<Value>>, typeArgs: seq<TypeRef>,
                              heap: Heap, cache: Cache)
    requires acc.obj in heap && LiveArgs(args, heap) && Coherent(cache) && |typeArgs| > 0
    requires forall m :: m in AllMethods(MethodTarget(acc, heap)) ==> m.name != acc.methodName
    ensures TryInvokeInternal(host, acc, args, typeArgs, heap, cache).NotInvoked?
  {
  }
}

=== FILE: dynamic_object_accessor.dfy ===
/** `DynamicObjectAccessor`: get and set by name, multi-key index get and set, conversion,
    and invocation by delegation to a method accessor. */
module DynamicObjectAccessor {
  import opened Wrappers
  import opened Universe
  import opened TypeExtensions
  import opened MemberInfoExtensions
  import opened ReflectionCache
  import opened Accessors
  import opened DynamicMethodAccessor

  /** The outcome of a get: success flag, the result (`None` for null), and the cache. */
  datatype GetOutcome = GetOutcome(ok: bool, result: Option<Handle>, cache: Cache)

  /** The outcome of a set: success flag, the heap after it, and the cache. */
  datatype SetOutcome = SetOutcome(ok: bool, heap: Heap, cache: Cache)

  /** The outcome of a conversion: success flag and the converted value (null on failure). */
  datatype ConvertOutcome = ConvertOutcome(ok: bool, result: Value)

  /** An index key: only string keys can address members. */
  datatype IndexKey = StringKey(s: string) | OtherKey

  /** The member a name resolves to on the accessor's effective type, computed without
      the cache: the first field or property called `name` in the hierarchy list. */
  function ResolvedMember(acc: ObjectAccessor, name: string, heap: Heap): (r: Option<MemberDesc>)
    requires acc.obj in heap
    ensures r.Some? ==> r.value.name == name && IsDataMember(r.value)
  {
    FirstNamed(FieldsAndProperties(EffectiveType(acc, heap)), name)
  }

  /** Some method of the hierarchy list of `t` is called `name`. */
  predicate HasMethodNamed(t: TypeDesc, name: string) {
    exists m :: m in AllMethods(t) && m.name == name
  }

  /** Whether `h` is an object accessor, the only kind of result an index chain continues on. */
  predicate IsObjectResult(r: GetOutcome) {
    r.ok && r.result.Some? && r.result.value.ObjectHandle?
  }

  /** `TryGetMemberInternal`: a field or property wins; its value is wrapped with the same
      cache setting, and a null value is still a success. Otherwise a method of that name
      yields a method handle. Otherwise the get fails with a null result. */
  function TryGetMember(acc: ObjectAccessor, name: string, heap: Heap, cache: Cache): (r: GetOutcome)
    requires acc.obj in heap && Coherent(cache)
    ensures Coherent(r.cache)
    ensures !r.ok ==> r.result.None?
    ensures ValidHeap(heap) && IsObjectResult(r) ==> r.result.value.accessor.obj in heap
    ensures IsObjectResult(r) ==> r.result.value.accessor.useCache == acc.useCache
    ensures !acc.useCache ==> r.cache == cache
    // A cached get installs at most the effective type's entries, and replaces none.
    ensures acc.useCache ==> GrowsBy(cache.members, r.cache.members, EffectiveType(acc, heap))
    ensures acc.useCache ==> GrowsAtMost(cache.methods, r.cache.methods, EffectiveType(acc, heap))
    ensures match ResolvedMember(acc, name, heap)
      case Some(m) => r.ok && r.result == Wrap(SlotValue(heap[acc.obj], m), acc.useCache)
      case None =>
        if HasMethodNamed(EffectiveType(acc, heap), name)
        then r.ok && r.result == Some(MethodHandle(MethodAccessor(acc.obj, name, acc.useCache)))
        else !r.ok
  {
    var t := EffectiveType(acc, heap);
    var member := GetMember(t, name, acc.useCache, cache);
    match member.value
    case Some(m) =>
      var v := GetValue(m, acc.obj, heap).value;
      GetOutcome(true, Wrap(v, acc.useCache), member.cache)
    case None =>
      var hasMethod := HasMethod(t, name, acc.useCache, member.cache);
      if hasMethod.value then
        GetOutcome(true, Some(MethodHandle(MethodAccessor(acc.obj, name, acc.useCache))), hasMethod.cache)
      else
        GetOutcome(false, None, hasMethod.cache)
  }

  /** `TrySetMemberInternal`: only a field or property of that name can be set, through the
      assignment validator. A name with no such member, even a method's name, fails and
      changes nothing. */
  function TrySetMember(host: Host, acc: ObjectAccessor, name: string, value: Value, heap: Heap, cache: Cache)
    : (r: SetOutcome)
    requires acc.obj in heap && Live(value, heap) && Coherent(cache)
    ensures Coherent(r.cache)
    ensures !acc.useCache ==> r.cache == cache
    ensures acc.useCache ==>
      GrowsBy(cache.members, r.cache.members, EffectiveType(acc, heap)) && r.cache.methods == cache.methods
    ensures ValidHeap(heap) ==> ValidHeap(r.heap)
    ensures match ResolvedMember(acc, name, heap)
      case None => !r.ok && r.heap == heap
      case Some(m) =>
        && (r.ok <==> Writable(m) && Accepts(host, m.declaredType, value, heap))
        && r.heap == (if r.ok then Write(heap, acc.obj, m, value) else heap)
  {
    var member := GetMember(EffectiveType(acc, heap), name, acc.useCache, cache);
    match member.value
    case None => SetOutcome(false, heap, member.cache)
    case Some(m) =>
      WritePreservesValidHeap(host, m, acc.obj, value, heap);
      var w := TrySetValue(host, m, acc.obj, value, heap);
      SetOutcome(w.ok, w.heap, member.cache)
  }

  /** `TryGetIndex`: no keys, or a first key that is not a string, fails with a null
      result; one key is a get of that name; more keys get the first name and continue on
      the result only when it is an object accessor. */
  function TryGetIndex(acc: ObjectAccessor, keys: seq<IndexKey>, heap: Heap, cache: Cache): (r: GetOutcome)
    requires acc.obj in heap && ValidHeap(heap) && Coherent(cache)
    ensures Coherent(r.cache)
    ensures !r.ok ==> r.result.None?
    ensures IsObjectResult(r) ==> r.result.value.accessor.obj in heap
    ensures IsObjectResult(r) ==> r.result.value.accessor.useCache == acc.useCache
    ensures !acc.useCache ==> r.cache == cache
    ensures Keeps(cache, r.cache)
    ensures |keys| == 0 || keys[0].OtherKey? ==> r == GetOutcome(false, None, cache)
    ensures |keys| == 1 && keys[0].StringKey? ==> r == TryGetMember(acc, keys[0].s, heap, cache)
    decreases |keys|
  {
    if |keys| == 0 then GetOutcome(false, None, cache)
    else
      match keys[0]
      case OtherKey => GetOutcome(false, None, cache)
      case StringKey(name) =>
        if |keys| == 1 then TryGetMember(acc, name, heap, cache)
        else
          var child := TryGetMember(acc, name, heap, cache);
          if IsObjectResult(child) then TryGetIndex(child.result.value.accessor, keys[1..], heap, child.cache)
          else GetOutcome(false, None, child.cache)
  }

  /** `TrySetIndex`: no keys, or a first key that is not a string, fails; one key is a set
      of that name; more keys get the first name and continue on the result only when it
      is an object accessor. */
  function TrySetIndex(host: Host, acc: ObjectAccessor, keys: seq<IndexKey>, value: Value, heap: Heap, cache: Cache)
    : (r: SetOutcome)
    requires acc.obj in heap && ValidHeap(heap) && Live(value, heap) && Coherent(cache)
    ensures Coherent(r.cache)
    ensures ValidHeap(r.heap)
    ensures !r.ok ==> r.heap == heap
    ensures !acc.useCache ==> r.cache == cache
    ensures Keeps(cache, r.cache)
    ensures |keys| == 0 || keys[0].OtherKey? ==> r == SetOutcome(false, heap, cache)
    ensures |keys| == 1 && keys[0].StringKey? ==> r == TrySetMember(host, acc, keys[0].s, value, heap, cache)
    decreases |keys|
  {
    if |keys| == 0 then SetOutcome(false, heap, cache)
    else
      match keys[0]
      case OtherKey => SetOutcome(false, heap, cache)
      case StringKey(name) =>
        if |keys| == 1 then TrySetMember(host, acc, name, value, heap, cache)
        else
          var child := TryGetMember(acc, name, heap, cache);
          if IsObjectResult(child) then TrySetIndex(host, child.result.value.accessor, keys[1..], value, heap, child.cache)
          else SetOutcome(false, heap, child.cache)
  }

  /** The reference fold for a chain of names, defined from the end of the path: get every
      name but the last, and get the last name on the result when that is an object
      accessor. */
  function GetPath(acc: ObjectAccessor, names: seq<string>, heap: Heap, cache: Cache): (r: GetOutcome)
    requires |names| > 0 && acc.obj in heap && ValidHeap(heap) && Coherent(cache)
    ensures Coherent(r.cache)
    ensures IsObjectResult(r) ==> r.result.value.accessor.obj in heap
    decreases |names|
  {
    if |names| == 1 then TryGetMember(acc, names[0], heap, cache)
    else
      var prev := GetPath(acc, names[..|names| - 1], heap, cache);
      if IsObjectResult(prev) then TryGetMember(prev.result.value.accessor, names[|names| - 1], heap, prev.cache)
      else GetOutcome(false, None, prev.cache)
  }

  /** The reference for a chained set: the fold of gets over every name but the last, then
      a set of the last name on the final object accessor. */
  function SetPath(host: Host, acc: ObjectAccessor, names: seq<string>, value: Value, heap: Heap, cache: Cache)
    : (r: SetOutcome)
    requires |names| > 0 && acc.obj in heap && ValidHeap(heap) && Live(value, heap) && Coherent(cache)
  {
    if |names| == 1 then TrySetMember(host, acc, names[0], value, heap, cache)
    else
      var prev := GetPath(acc, names[..|names| - 1], heap, cache);
      if IsObjectResult(prev) then TrySetMember(host, prev.result.value.accessor, names[|names| - 1], value, heap, prev.cache)
      else SetOutcome(false, heap, prev.cache)
  }

  /** Every key is a string. */
  predicate AllStrings(keys: seq<IndexKey>) {
    forall i :: 0 <= i < |keys| ==> keys[i].StringKey?
  }

  /** The names of a list of string keys. */
  function Names(keys: seq<IndexKey>): (r: seq<string>)
    requires AllStrings(keys)
    ensures |r| == |keys|
  {
    if keys == [] then [] else [keys[0].s] + Names(keys[1..])
  }

  /** Folding the gets from the front agrees with the reference fold from the end. */
  lemma {:induction false} GetPathCons(acc: ObjectAccessor, name: string, rest: seq<string>, heap: Heap, cache: Cache)
    requires |rest| > 0 && acc.obj in heap && ValidHeap(heap) && Coherent(cache)
    ensures var first := TryGetMember(acc, name, heap, cache);
      GetPath(acc, [name] + rest, heap, cache)
        == if IsObjectResult(first) then GetPath(first.result.value.accessor, rest, heap, first.cache)
           else GetOutcome(false, None, first.cache)
    decreases |rest|
  {
    var names := [name] + rest;
    var first := TryGetMember(acc, name, heap, cache);
    assert names[..|names| - 1] == [name] + rest[..|rest| - 1];
    assert names[|names| - 1] == rest[|rest| - 1];
    if |rest| == 1 {
      assert [name] + rest[..0] == [name];
    } else {
      GetPathCons(acc, name, rest[..|rest| - 1], heap, cache);
    }
  }

  /** A multi-key get is the left-to-right fold of gets over its names. */
  lemma {:induction false} GetIndexIsFold(acc: ObjectAccessor, keys: seq<IndexKey>, heap: Heap, cache: Cache)
    requires |keys| > 0 && AllStrings(keys)
    requires acc.obj in heap && ValidHeap(heap) && Coherent(cache)
    ensures TryGetIndex(acc, keys, heap, cache) == GetPath(acc, Names(keys), heap, cache)
    decreases |keys|
  {
    if |keys| > 1 {
      var first := TryGetMember(acc, keys[0].s, heap, cache);
      assert Names(keys) == [keys[0].s] + Names(keys[1..]);
      GetPathCons(acc, keys[0].s, Names(keys[1..]), heap, cache);
      if IsObjectResult(first) {
        GetIndexIsFold(first.result.value.accessor, keys[1..], heap, first.cache);
      }
    }
  }

  /** Any key that is not a string, at any depth, makes a multi-key get fail. */
  lemma {:induction false} GetIndexNonStringKeyFails(acc: ObjectAccessor, keys: seq<IndexKey>, heap: Heap, cache: Cache)
    requires !AllStrings(keys)
    requires acc.obj in heap && ValidHeap(heap) && Coherent(cache)
    ensures !TryGetIndex(acc, keys, heap, cache).ok
    ensures TryGetIndex(acc, keys, heap, cache).result.None?
    decreases |keys|
  {
    if keys[0].StringKey? {
      var i :| 0 <= i < |keys| && !keys[i].StringKey?;
      assert |keys| > 1 && keys[1..][i - 1] == keys[i];
      var first := TryGetMember(acc, keys[0].s, heap, cache);
      if IsObjectResult(first) {
        GetIndexNonStringKeyFails(first.result.value.accessor, keys[1..], heap, first.cache);
      }
    }
  }

  /** Setting through the front-first recursion agrees with the reference set. */
  lemma SetPathCons(host: Host, acc: ObjectAccessor, name: string, rest: seq<string>, value: Value, heap: Heap, cache: Cache)
    requires |rest| > 0 && acc.obj in heap && ValidHeap(heap) && Live(value, heap) && Coherent(cache)
    ensures var first := TryGetMember(acc, name, heap, cache);
      SetPath(host, acc, [name] + rest, value, heap, cache)
        == if IsObjectResult(first) then SetPath(host, first.result.value.accessor, rest, value, heap, first.cache)
           else SetOutcome(false, heap, first.cache)
  {
    var names := [name] + rest;
    assert names[..|names| - 1] == [name] + rest[..|rest| - 1];
    assert names[|names| - 1] == rest[|rest| - 1];
    if |rest| == 1 {
      assert [name] + rest[..0] == [name];
    } else {
      GetPathCons(acc, name, rest[..|rest| - 1], heap, cache);
    }
  }

  /** A multi-key set gets every name but the last, with the same short-circuit, then sets
      the last name on the final object accessor. */
  lemma {:induction false} SetIndexIsGetThenSet(host: Host, acc: ObjectAccessor, keys: seq<IndexKey>, value: Value,
                                               heap: Heap, cache: Cache)
    requires |keys| > 0 && AllStrings(keys)
    requires acc.obj in heap && ValidHeap(heap) && Live(value, heap) && Coherent(cache)
    ensures TrySetIndex(host, acc, keys, value, heap, cache) == SetPath(host, acc, Names(keys), value, heap, cache)
    decreases |keys|
  {
    if |keys| > 1 {
      var first := TryGetMember(acc, keys[0].s, heap, cache);
      assert Names(keys) == [keys[0].s] + Names(keys[1..]);
      SetPathCons(host, acc, keys[0].s, Names(keys[1..]), value, heap, cache);
      if IsObjectResult(first) {
        SetIndexIsGetThenSet(host, first.result.value.accessor, keys[1..], value, heap, first.cache);
      }
    }
  }

  /** Any key that is not a string, at any depth, makes a multi-key set fail without
      changing the heap. */
  lemma {:induction false} SetIndexNonStringKeyFails(host: Host, acc: ObjectAccessor, keys: seq<IndexKey>, value: Value,
                                                    heap: Heap, cache: Cache)
    requires !AllStrings(keys)
    requires acc.obj in heap && ValidHeap(heap) && Live(value, heap) && Coherent(cache)
    ensures !TrySetIndex(host, acc, keys, value, heap, cache).ok
    ensures TrySetIndex(host, acc, keys, value, heap, cache).heap == heap
    decreases |keys|
  {
    if keys[0].StringKey? {
      var i :| 0 <= i < |keys| && !keys[i].StringKey?;
      assert |keys| > 1 && keys[1..][i - 1] == keys[i];
      var first := TryGetMember(acc, keys[0].s, heap, cache);
      if IsObjectResult(first) {
        SetIndexNonStringKeyFails(host, first.result.value.accessor, keys[1..], value, heap, first.cache);
      }
    }
  }

  /** Read after write: after a successful set of a name, a get of the same name on the
      same accessor yields the assigned value, wrapped with the accessor's cache setting. */
  lemma SetThenGet(host: Host, acc: ObjectAccessor, name: string, value: Value, heap: Heap, cache: Cache)
    requires acc.obj in heap && Live(value, heap) && Coherent(cache)
    requires TrySetMember(host, acc, name, value, heap, cache).ok
    ensures var s := TrySetMember(host, acc, name, value, heap, cache);
      && acc.obj in s.heap
      && TryGetMember(acc, name, s.heap, s.cache).ok
      && TryGetMember(acc, name, s.heap, s.cache).result == Wrap(value, acc.useCache)
  {
    var s := TrySetMember(host, acc, name, value, heap, cache);
    var m := ResolvedMember(acc, name, heap).value;
    assert s.heap == Write(heap, acc.obj, m, value);
    assert EffectiveType(acc, s.heap) == EffectiveType(acc, heap);
    assert ResolvedMember(acc, name, s.heap) == Some(m);
    assert SlotValue(s.heap[acc.obj], m) == value;
  }

  /** `TryConvert`: an object that is already an instance of the target type is returned
      unchanged; otherwise the host conversion decides, and a failed conversion gives a
      null result. The check looks at the object's runtime type, not at the override. */
  function TryConvert(host: Host, acc: ObjectAccessor, target: TypeRef, heap: Heap): (r: ConvertOutcome)
    requires acc.obj in heap
    ensures host.assignable(target, heap[acc.obj].runtimeType.key) ==> r == ConvertOutcome(true, Ref(acc.obj))
    ensures !host.assignable(target, heap[acc.obj].runtimeType.key) ==>
      (r.ok <==> host.changeType(Ref(acc.obj), target, heap).Some?)
    ensures r.ok && !host.assignable(target, heap[acc.obj].runtimeType.key) ==>
      r.result == host.changeType(Ref(acc.obj), target, heap).value
    ensures !r.ok ==> r.result == Null
  {
    var obj := Ref(acc.obj);
    if IsAssignableFrom(host, target, TypeOfValue(obj, heap)) then ConvertOutcome(true, obj)
    else
      match host.changeType(obj, target, heap)
      case Some(v) => ConvertOutcome(true, v)
      case None => ConvertOutcome(false, Null)
  }

  /** `TryInvokeMember`: invocation goes through a method accessor over the same object,
      with the same cache setting and no type override. */
  function TryInvokeMember(host: Host, acc: ObjectAccessor, name: string, args: Option<seq<Value>>,
                           typeArgs: seq<TypeRef>, heap: Heap, cache: Cache): (r: InvokeOutcome)
    requires acc.obj in heap && LiveArgs(args, heap) && Coherent(cache)
    ensures Coherent(r.cache)
    ensures |typeArgs| == 0 ==> r.cache == cache
    ensures |typeArgs| > 0 ==> !r.Raised?
  {
    TryInvokeInternal(host, MethodAccessor(acc.obj, name, acc.useCache), args, typeArgs, heap, cache)
  }

  /** The type override of an object accessor never changes what an invocation does. */
  lemma InvokeIgnoresOverride(host: Host, acc: ObjectAccessor, name: string, args: Option<seq<Value>>,
                              typeArgs: seq<TypeRef>, heap: Heap, cache: Cache)
    requires acc.obj in heap && LiveArgs(args, heap) && Coherent(cache)
    ensures TryInvokeMember(host, acc, name, args, typeArgs, heap, cache)
         == TryInvokeMember(host, acc.(treatAs := None), name, args, typeArgs, heap, cache)
  {
  }
}

=== FILE: member_info_extensions.dfy ===
/** `MemberInfoExtensions`: reading a member of an object and the assignment validator
    that decides whether a value may be written to a field or property. */
module MemberInfoExtensions {
  import opened Wrappers
  import opened Universe
  import opened TypeExtensions

  /** The value currently held by member `m` of object `o` (`null` when never written). */
  function SlotValue(o: ObjectState, m: MemberDesc): Value {
    if m in o.slots then o.slots[m] else Null
  }

  /** `GetValue`: a field or property yields its current value; any other kind of
      member throws, which is `None` here. */
  function GetValue(m: MemberDesc, obj: Addr, heap: Heap): (r: Option<Value>)
    requires obj in heap
    ensures r.Some? <==> IsDataMember(m)
    ensures r.Some? ==> r.value == SlotValue(heap[obj], m)
  {
    match m.kind
    case Field => Some(SlotValue(heap[obj], m))
    case Property => Some(SlotValue(heap[obj], m))
    case _ => None
  }

  /** The heap after member `m` of object `obj` was set to `v`. */
  function Write(heap: Heap, obj: Addr, m: MemberDesc, v: Value): Heap
    requires obj in heap
  {
    heap[obj := heap[obj].(slots := heap[obj].slots[m := v])]
  }

  /** A member the validator may write at all: any field, or a property with a setter. */
  predicate Writable(m: MemberDesc) {
    m.kind == Field || (m.kind == Property && m.canWrite)
  }

  /** A value a member of declared type `t` accepts: null when `t` is nullable, and
      otherwise a value whose runtime type `t` is assignable from. */
  predicate Accepts(host: Host, t: TypeRef, v: Value, heap: Heap)
    requires Live(v, heap)
  {
    (v.Null? && IsNullable(t)) || IsAssignableFrom(host, t, TypeOfValue(v, heap))
  }

  /** Whether the validator wrote the value, and the heap it leaves. */
  datatype WriteOutcome = WriteOutcome(ok: bool, heap: Heap)

  /** `TrySetValue`: the write happens exactly when the member is writable and accepts the
      value; on every failure path the heap is unchanged. */
  function TrySetValue(host: Host, m: MemberDesc, obj: Addr, value: Value, heap: Heap): (r: WriteOutcome)
    requires obj in heap && Live(value, heap)
    ensures r.ok <==> Writable(m) && Accepts(host, m.declaredType, value, heap)
    ensures !r.ok ==> r.heap == heap
    ensures r.ok ==> r.heap == Write(heap, obj, m, value)
  {
    var valueType := TypeOfValue(value, heap);
    match m.kind
    case Field =>
      if value.Null? && IsNullable(m.declaredType) then WriteOutcome(true, Write(heap, obj, m, Null))
      else if IsAssignableFrom(host, m.declaredType, valueType) then WriteOutcome(true, Write(heap, obj, m, value))
      else WriteOutcome(false, heap)
    case Property =>
      if !m.canWrite then WriteOutcome(false, heap)
      else if value.Null? && IsNullable(m.declaredType) then WriteOutcome(true, Write(heap, obj, m, Null))
      else if IsAssignableFrom(host, m.declaredType, valueType) then WriteOutcome(true, Write(heap, obj, m, value))
      else WriteOutcome(false, heap)
    case _ => WriteOutcome(false, heap)
  }

  /** After a successful set, reading the same member yields the assigned value; every
      other member of every object reads as before, and no object appears, disappears or
      changes type. */
  lemma ReadAfterWrite(host: Host, m: MemberDesc, obj: Addr, value: Value, heap: Heap)
    requires obj in heap && Live(value, heap)
    requires TrySetValue(host, m, obj, value, heap).ok
    ensures var h := TrySetValue(host, m, obj, value, heap).heap;
      && h.Keys == heap.Keys
      && GetValue(m, obj, h) == Some(value)
      && (forall a :: a in heap ==> h[a].runtimeType == heap[a].runtimeType)
      && (forall m', a :: a in heap && (m', a) != (m, obj) ==> GetValue(m', a, h) == GetValue(m', a, heap))
  {
  }

  /** A set preserves the closedness of the heap. */
  lemma WritePreservesValidHeap(host: Host, m: MemberDesc, obj: Addr, value: Value, heap: Heap)
    requires obj in heap && Live(value, heap)
    ensures ValidHeap(heap) ==> ValidHeap(TrySetValue(host, m, obj, value, heap).heap)
  {
    if !ValidHeap(heap) { return; }
    var h := TrySetValue(host, m, obj, value, heap).heap;
    forall a, m' | a in h && m' in h[a].slots
      ensures Live(h[a].slots[m'], h)
    {
      if a == obj && m' == m && TrySetValue(host, m, obj, value, heap).ok {
        assert h[a].slots[m'] == value;
      } else {
        assert h[a].slots[m'] == heap[a].slots[m'];
      }
    }
  }

  /** Null assigned to a field or writable property of a nullable type succeeds, and the
      member then reads as null. */
  lemma NullIntoNullable(host: Host, m: MemberDesc, obj: Addr, heap: Heap)
    requires obj in heap && Writable(m) && IsNullable(m.declaredType)
    ensures TrySetValue(host, m, obj, Null, heap).ok
    ensures GetValue(m, obj, TrySetValue(host, m, obj, Null, heap).heap) == Some(Null)
  {
  }

  /** Null assigned to a member of a non-nullable value type fails and leaves the heap,
      and so the member's value, unchanged. */
  lemma NullIntoValueTypeFails(host: Host, m: MemberDesc, obj: Addr, heap: Heap)
    requires obj in heap && m.declaredType.IsValueType()
    requires !(m.declaredType.IsGenericType() && m.declaredType.genericDefinition.value == NullableDefinition)
    ensures !TrySetValue(host, m, obj, Null, heap).ok
    ensures TrySetValue(host, m, obj, Null, heap).heap == heap
  {
  }

  /** A property without a setter, and any member that is neither a field nor a property,
      is never written, whatever the value. */
  lemma ReadOnlyNeverWritten(host: Host, m: MemberDesc, obj: Addr, value: Value, heap: Heap)
    requires obj in heap && Live(value, heap)
    requires (m.kind == Property && !m.canWrite) || !IsDataMember(m)
    ensures TrySetValue(host, m, obj, value, heap) == WriteOutcome(false, heap)
  {
  }

  /** A writable property follows the field rules: it accepts exactly the values a field
      of the same declared type accepts. */
  lemma PropertyFollowsFieldRules(host: Host, m: MemberDesc, obj: Addr, value: Value, heap: Heap)
    requires obj in heap && Live(value, heap)
    requires m.kind == Property && m.canWrite
    ensures TrySetValue(host, m, obj, value, heap).ok == TrySetValue(host, m.(kind := Field), obj, value, heap).ok
  {
  }
}

=== FILE: reflection_cache.dfy ===
/** `ReflectionCache`: the per-type memo of member and method lists, threaded as a value,
    and the lookups built on it. */
module ReflectionCache {
  import opened Wrappers
  import opened Universe
  import opened TypeExtensions

  /** The two memo tables, keyed by type. */
  datatype Cache = Cache(
    members: map<TypeDesc, seq<MemberDesc>>,
    methods: map<TypeDesc, seq<MethodDesc>>)

  /** The cache as the process starts. */
  const EmptyCache: Cache := Cache(map[], map[])

  /** A lookup's answer together with the cache it leaves. */
  datatype Cached<T> = Cached(value: T, cache: Cache)

  /** The fields and properties of `ms`, in their original order. */
  function DataMembers(ms: seq<MemberDesc>): (r: seq<MemberDesc>)
    ensures forall m :: m in r <==> m in ms && IsDataMember(m)
    ensures |r| <= |ms|
  {
    if ms == [] then []
    else (if IsDataMember(ms[0]) then [ms[0]] else []) + DataMembers(ms[1..])
  }

  /** `GetTypeFieldsAndProperties`: the hierarchy member list restricted to fields and
      properties. */
  function FieldsAndProperties(t: TypeDesc): (r: seq<MemberDesc>)
    ensures forall m :: m in r <==> m in AllMembers(t) && IsDataMember(m)
  {
    DataMembers(AllMembers(t))
  }

  /** Every entry of the cache is what the list builder computes for its type. Every cache
      the lookups below produce from a coherent one is coherent, and `EmptyCache` is. */
  predicate Coherent(c: Cache) {
    && (forall t :: t in c.members ==> c.members[t] == FieldsAndProperties(t))
    && (forall t :: t in c.methods ==> c.methods[t] == AllMethods(t))
  }

  /** `m'` is `m` with an entry for `key` added, or `m` itself when it already had one. */
  predicate GrowsBy<V(==)>(m: map<TypeDesc, V>, m': map<TypeDesc, V>, key: TypeDesc) {
    && m'.Keys == m.Keys + {key}
    && forall k :: k in m ==> m'[k] == m[k]
  }

  /** `m'` keeps every entry of `m` and adds at most an entry for `key`. */
  predicate GrowsAtMost<V(==)>(m: map<TypeDesc, V>, m': map<TypeDesc, V>, key: TypeDesc) {
    && m'.Keys <= m.Keys + {key}
    && forall k :: k in m ==> k in m' && m'[k] == m[k]
  }

  /** No entry of either table of `c` is removed or replaced in `c'`. */
  predicate Keeps(c: Cache, c': Cache) {
    && (forall t :: t in c.members ==> t in c'.members && c'.members[t] == c.members[t])
    && (forall t :: t in c.methods ==> t in c'.methods && c'.methods[t] == c.methods[t])
  }

  /** `ConcurrentDictionary.GetOrAdd`, sequentially: an existing entry is returned and
      never replaced; otherwise `built` is installed and returned. */
  function GetOrAdd<V(==)>(m: map<TypeDesc, V>, key: TypeDesc, built: V): (r: (V, map<TypeDesc, V>))
    ensures key in r.1 && r.0 == r.1[key]
    ensures GrowsBy(m, r.1, key)
    ensures key !in m ==> r.0 == built
  {
    if key in m then (m[key], m) else (built, m[key := built])
  }

  /** The member list of `t`, from the cache when `useCache` holds. */
  function MemberList(t: TypeDesc, useCache: bool, cache: Cache): (r: Cached<seq<MemberDesc>>)
    ensures !useCache ==> r == Cached(FieldsAndProperties(t), cache)
    ensures useCache ==> t in r.cache.members && r.value == r.cache.members[t]
    ensures useCache ==> GrowsBy(cache.members, r.cache.members, t) && r.cache.methods == cache.methods
    ensures Coherent(cache) ==> Coherent(r.cache) && r.value == FieldsAndProperties(t)
  {
    if useCache then
      var (list, members) := GetOrAdd(cache.members, t, FieldsAndProperties(t));
      Cached(list, cache.(members := members))
    else
      Cached(FieldsAndProperties(t), cache)
  }

  /** The method list of `t`, from the cache when `useCache` holds. */
  function MethodList(t: TypeDesc, useCache: bool, cache: Cache): (r: Cached<seq<MethodDesc>>)
    ensures !useCache ==> r == Cached(AllMethods(t), cache)
    ensures useCache ==> t in r.cache.methods && r.value == r.cache.methods[t]
    ensures useCache ==> GrowsBy(cache.methods, r.cache.methods, t) && r.cache.members == cache.members
    ensures Coherent(cache) ==> Coherent(r.cache) && r.value == AllMethods(t)
  {
    if useCache then
      var (list, methods) := GetOrAdd(cache.methods, t, AllMethods(t));
      Cached(list, cache.(methods := methods))
    else
      Cached(AllMethods(t), cache)
  }

  /** The position of the first member of `ms` called `name`, or `|ms|` when none is. */
  function FirstNamedIndex(ms: seq<MemberDesc>, name: string): (r: nat)
    ensures r <= |ms|
    ensures forall j :: 0 <= j < r ==> ms[j].name != name
    ensures r < |ms| ==> ms[r].name == name
  {
    if ms == [] then 0
    else if ms[0].name == name then 0
    else 1 + FirstNamedIndex(ms[1..], name)
  }

  /** The first member of `ms` called `name` (`FirstOrDefault`). */
  function FirstNamed(ms: seq<MemberDesc>, name: string): (r: Option<MemberDesc>)
    ensures r.None? <==> forall m :: m in ms ==> m.name != name
    ensures r.Some? ==> r.value == ms[FirstNamedIndex(ms, name)]
    ensures r.Some? ==> r.value in ms && r.value.name == name
  {
    var i := FirstNamedIndex(ms, name);
    if i < |ms| then Some(ms[i]) else None
  }

  /** `GetMember`: the first field or property of the hierarchy list called `name`. */
  function GetMember(t: TypeDesc, name: string, useCache: bool, cache: Cache): (r: Cached<Option<MemberDesc>>)
    ensures r.value.Some? ==> r.value.value.name == name
    ensures Coherent(cache) ==> Coherent(r.cache) && r.value == FirstNamed(FieldsAndProperties(t), name)
    ensures !useCache ==> r.cache == cache
    ensures useCache ==> GrowsBy(cache.members, r.cache.members, t) && r.cache.methods == cache.methods
  {
    var list := MemberList(t, useCache, cache);
    Cached(FirstNamed(list.value, name), list.cache)
  }

  /** `HasMethod`: some method of the hierarchy list is called `name`. */
  function HasMethod(t: TypeDesc, name: string, useCache: bool, cache: Cache): (r: Cached<bool>)
    ensures Coherent(cache) ==> Coherent(r.cache) && (r.value <==> exists m :: m in AllMethods(t) && m.name == name)
    ensures !useCache ==> r.cache == cache
    ensures useCache ==> GrowsBy(cache.methods, r.cache.methods, t) && r.cache.members == cache.members
  {
    var list := MethodList(t, useCache, cache);
    Cached(exists m :: m in list.value && m.name == name, list.cache)
  }

  /** `GetMethods`: the methods of the hierarchy list called `name`, in list order. */
  function GetMethods(t: TypeDesc, name: string, useCache: bool, cache: Cache): (r: Cached<seq<MethodDesc>>)
    ensures Coherent(cache) ==> Coherent(r.cache) && r.value == MethodsNamed(AllMethods(t), name)
    ensures !useCache ==> r.cache == cache
    ensures useCache ==> GrowsBy(cache.methods, r.cache.methods, t) && r.cache.members == cache.members
  {
    var list := MethodList(t, useCache, cache);
    Cached(MethodsNamed(list.value, name), list.cache)
  }

  /** `GetMethod`: the host's non-generic overload resolution. `useCache` is ignored and
      neither table is read or written. */
  function GetMethod(host: Host, t: TypeDesc, name: string, argTypes: seq<Option<TypeRef>>, useCache: bool, cache: Cache)
    : (r: Cached<OverloadLookup>)
    ensures r.cache == cache
    ensures r.value == host.getMethod(t, name, argTypes)
  {
    Cached(host.getMethod(t, name, argTypes), cache)
  }

  /** `GetMethod` answers the same whatever `useCache` and the cache hold. */
  lemma GetMethodIgnoresCache(host: Host, t: TypeDesc, name: string, argTypes: seq<Option<TypeRef>>,
                              useCache: bool, cache: Cache, useCache': bool, cache': Cache)
    ensures GetMethod(host, t, name, argTypes, useCache, cache).value
         == GetMethod(host, t, name, argTypes, useCache', cache').value
  {
  }

  /** The empty cache is coherent. */
  lemma EmptyCacheCoherent()
    ensures Coherent(EmptyCache)
  {
  }

  /** Cache transparency: from a coherent cache, the cached and uncached paths give the
      same answers, and the cached path leaves a coherent cache. */
  lemma CacheTransparent(t: TypeDesc, name: string, cache: Cache)
    requires Coherent(cache)
    ensures GetMember(t, name, true, cache).value == GetMember(t, name, false, cache).value
    ensures HasMethod(t, name, true, cache).value == HasMethod(t, name, false, cache).value
    ensures GetMethods(t, name, true, cache).value == GetMethods(t, name, false, cache).value
    ensures Coherent(GetMember(t, name, true, cache).cache)
    ensures Coherent(GetMethods(t, name, true, cache).cache)
  {
  }

  /** `HasMethod` holds exactly when `GetMethods` is non-empty, on the same cache. */
  lemma HasMethodIffGetMethods(t: TypeDesc, name: string, useCache: bool, cache: Cache)
    ensures HasMethod(t, name, useCache, cache).value <==> |GetMethods(t, name, useCache, cache).value| > 0
    ensures HasMethod(t, name, useCache, cache).cache == GetMethods(t, name, useCache, cache).cache
  {
    var list := MethodList(t, useCache, cache).value;
    var named := MethodsNamed(list, name);
    if |named| > 0 {
      assert named[0] in named;
    }
  }

  /** A member list holds only fields and properties. */
  lemma MemberListHoldsDataMembers(t: TypeDesc, useCache: bool, cache: Cache, i: nat)
    requires Coherent(cache)
    requires i < |MemberList(t, useCache, cache).value|
    ensures IsDataMember(MemberList(t, useCache, cache).value[i])
  {
    assert MemberList(t, useCache, cache).value[i] in FieldsAndProperties(t);
  }

  /** Filtering distributes over concatenation. */
  lemma {:induction false} DataMembersAppend(a: seq<MemberDesc>, b: seq<MemberDesc>)
    ensures DataMembers(a + b) == DataMembers(a) + DataMembers(b)
  {
    if a != [] {
      assert (a + b)[1..] == a[1..] + b;
      DataMembersAppend(a[1..], b);
    } else {
      assert a + b == b;
    }
  }

  /** The first match in a concatenation is the first match in the left part, if any. */
  lemma {:induction false} FirstNamedAppend(a: seq<MemberDesc>, b: seq<MemberDesc>, name: string)
    ensures FirstNamed(a + b, name) == if FirstNamed(a, name).Some? then FirstNamed(a, name) else FirstNamed(b, name)
  {
    FirstNamedIndexAppend(a, b, name);
  }

  lemma {:induction false} FirstNamedIndexAppend(a: seq<MemberDesc>, b: seq<MemberDesc>, name: string)
    ensures FirstNamedIndex(a + b, name)
         == if FirstNamedIndex(a, name) < |a| then FirstNamedIndex(a, name) else |a| + FirstNamedIndex(b, name)
  {
    if a == [] {
      assert a + b == b;
    } else if a[0].name != name {
      assert (a + b)[1..] == a[1..] + b;
      FirstNamedIndexAppend(a[1..], b, name);
    }
  }

  /** Name lookup prefers the most derived declaration: a field or property declared on
      `t` itself hides every inherited member of that name, and only when `t` declares
      none is the first matching inherited one found. */
  lemma MostDerivedDeclarationWins(t: TypeDesc, name: string)
    ensures FirstNamed(FieldsAndProperties(t), name)
         == if FirstNamed(DataMembers(t.declaredMembers), name).Some?
            then FirstNamed(DataMembers(t.declaredMembers), name)
            else FirstNamed(DataMembers(AncestorMembers(t)), name)
  {
    DataMembersAppend(t.declaredMembers, AncestorMembers(t));
    FirstNamedAppend(DataMembers(t.declaredMembers), DataMembers(AncestorMembers(t)), name);
  }
}

=== FILE: type_extensions.dfy ===
/** The hierarchy walks of `TypeExtensions`: the base-type chain, the method lists
    (unfiltered and filtered by name), the member list, and `IsNullable`. */
module TypeExtensions {
  import opened Wrappers
  import opened Universe

  /** The base-type chain of `t`: `t` itself, then each ancestor, ending at the root. */
  function Chain(t: TypeDesc): (r: seq<TypeDesc>)
    ensures 1 <= |r| && r[0] == t
    ensures forall i :: 0 <= i < |r| - 1 ==> r[i].baseType == Some(r[i + 1])
    ensures r[|r| - 1].baseType.None?
    decreases t
  {
    match t.baseType
    case None => [t]
    case Some(b) => [t] + Chain(b)
  }

  /** The ancestors of `t`, nearest first. */
  function Ancestors(t: TypeDesc): seq<TypeDesc> {
    Chain(t)[1..]
  }

  /** The method lists of the levels `ts`, one after the other. */
  function MethodsOfLevels(ts: seq<TypeDesc>): (r: seq<MethodDesc>)
    ensures |r| == MethodCount(ts)
  {
    if ts == [] then [] else ts[0].methods + MethodsOfLevels(ts[1..])
  }

  /** The sum of the method-list lengths of the levels `ts`. */
  function MethodCount(ts: seq<TypeDesc>): nat {
    if ts == [] then 0 else |ts[0].methods| + MethodCount(ts[1..])
  }

  /** The (non-declared-only) member lists of the levels `ts`, one after the other. */
  function MembersOfLevels(ts: seq<TypeDesc>): (r: seq<MemberDesc>)
    ensures |r| == MemberCount(ts)
  {
    if ts == [] then [] else ts[0].members + MembersOfLevels(ts[1..])
  }

  /** The sum of the member-list lengths of the levels `ts`. */
  function MemberCount(ts: seq<TypeDesc>): nat {
    if ts == [] then 0 else |ts[0].members| + MemberCount(ts[1..])
  }

  /** `GetAllMethods(type, flags)`: the type's methods, then those of each ancestor in
      base-chain order; the walk stops at the root. */
  function AllMethods(t: TypeDesc): (r: seq<MethodDesc>)
    ensures r == MethodsOfLevels(Chain(t))
    ensures |r| == MethodCount(Chain(t))
    ensures r[..|t.methods|] == t.methods
    decreases t
  {
    match t.baseType
    case None => t.methods
    case Some(b) => t.methods + AllMethods(b)
  }

  /** The methods of `ms` called `name`, in their original order. */
  function MethodsNamed(ms: seq<MethodDesc>, name: string): (r: seq<MethodDesc>)
    ensures forall m :: m in r <==> m in ms && m.name == name
    ensures |r| <= |ms|
  {
    if ms == [] then []
    else (if ms[0].name == name then [ms[0]] else []) + MethodsNamed(ms[1..], name)
  }

  /** Filtering by name distributes over concatenation: the filter keeps the order. */
  lemma {:induction false} MethodsNamedAppend(a: seq<MethodDesc>, b: seq<MethodDesc>, name: string)
    ensures MethodsNamed(a + b, name) == MethodsNamed(a, name) + MethodsNamed(b, name)
    decreases |a|
  {
    if a == [] {
      assert a + b == b;
    } else {
      assert (a + b)[0] == a[0];
      assert (a + b)[1..] == a[1..] + b;
      MethodsNamedAppend(a[1..], b, name);
    }
  }

  /** `GetAllMethods(type, name, flags)`: at each level of the walk, the methods called
      `name`. It equals filtering the unfiltered walk by name. */
  function AllMethodsNamed(t: TypeDesc, name: string): (r: seq<MethodDesc>)
    ensures r == MethodsNamed(AllMethods(t), name)
    decreases t
  {
    match t.baseType
    case None => MethodsNamed(t.methods, name)
    case Some(b) =>
      MethodsNamedAppend(t.methods, AllMethods(b), name);
      MethodsNamed(t.methods, name) + AllMethodsNamed(b, name)
  }

  /** The members each ancestor of `t` lists, nearest ancestor first. */
  function AncestorMembers(t: TypeDesc): (r: seq<MemberDesc>)
    ensures r == MembersOfLevels(Ancestors(t))
    decreases t
  {
    match t.baseType
    case None => []
    case Some(b) => b.members + AncestorMembers(b)
  }

  /** `GetAllMembers(t, flags)`: the type's own declarations first, then what each
      ancestor lists, in base-chain order, so the list is most-derived first. */
  function AllMembers(t: TypeDesc): (r: seq<MemberDesc>)
    ensures r == t.declaredMembers + MembersOfLevels(Ancestors(t))
    ensures |r| == |t.declaredMembers| + MemberCount(Ancestors(t))
  {
    t.declaredMembers + AncestorMembers(t)
  }

  /** `IsNullable`: reference types and `Nullable<T>` accept null; every other value
      type does not. */
  function IsNullable(t: TypeRef): (r: bool)
    ensures r <==> !t.IsValueType() || (t.IsGenericType() && t.genericDefinition.value == NullableDefinition)
  {
    if !t.IsValueType() then true
    else if !t.IsGenericType() then false
    else if t.genericDefinition.value == NullableDefinition then true
    else false
  }
}

=== FILE: universe.dfy ===
/** The abstract type universe that replaces .NET reflection: type references, member
    and method descriptors, type descriptors with their base chain, the object heap, and
    the host oracles (assignability, overload resolution, generic instantiation,
    invocation and value conversion) whose behaviour is left uninterpreted. */
module Universe {
  import opened Wrappers

  type TypeName = string

  /** A reference to a runtime type, carrying only the facts the engine asks of a type. */
  datatype TypeRef =
    | Named(name: TypeName, isValueType: bool, genericDefinition: Option<TypeName>)
    | GenericParameter(name: TypeName)
  {
    /** `Type.IsValueType`; a generic parameter is never a value type. */
    predicate IsValueType() { Named? && isValueType }

    /** `Type.IsGenericType`: the type was constructed from a generic definition. */
    predicate IsGenericType() { Named? && genericDefinition.Some? }

    /** `Type.IsGenericParameter`: an open type parameter such as `T`. */
    predicate IsGenericParameter() { GenericParameter? }
  }

  /** The name of the generic definition `Nullable<>`. */
  const NullableDefinition: TypeName := "System.Nullable`1"

  /** `MemberInfo.MemberType`, restricted to the kinds a member listing can hold. */
  datatype MemberKind = Field | Property | Method | Constructor | Event | NestedType

  /** A field, property or other member as reflection reports it. `canWrite` is only
      consulted for properties. Members declared on different types are distinct even
      when their names coincide. */
  datatype MemberDesc = MemberDesc(
    name: string,
    kind: MemberKind,
    declaredType: TypeRef,
    canWrite: bool,
    declaringType: TypeName)

  /** A field or a property: the only members whose values can be read or written. */
  predicate IsDataMember(m: MemberDesc) {
    m.kind == Field || m.kind == Property
  }

  /** A formal parameter: its declared type and whether it is an `out` parameter. */
  datatype ParamDesc = ParamDesc(paramType: TypeRef, isOut: bool)

  /** A method: `genericSlots` is what `GetGenericArguments()` reports. */
  datatype MethodDesc = MethodDesc(
    name: string,
    isGenericMethodDefinition: bool,
    parameters: seq<ParamDesc>,
    genericSlots: seq<TypeRef>,
    declaringType: TypeName)

  /** A runtime type. `declaredMembers` is the member list restricted to this type's own
      declarations; `members` and `methods` are what the host lists for this type with
      the library's binding flags (which may repeat visible inherited members). The base
      chain is a nested value, so it is finite and acyclic by construction. */
  datatype TypeDesc = TypeDesc(
    key: TypeRef,
    baseType: Option<TypeDesc>,
    declaredMembers: seq<MemberDesc>,
    members: seq<MemberDesc>,
    methods: seq<MethodDesc>)

  type Addr = nat

  /** A reference-typed value: `null` or the address of a live object. */
  datatype Value = Null | Ref(addr: Addr)

  /** A live object: its runtime type and the current value of each data member. A slot
      missing from `slots` holds `null`; a value-type member is expected to have a slot,
      since its default value is not null. */
  datatype ObjectState = ObjectState(runtimeType: TypeDesc, slots: map<MemberDesc, Value>)

  type Heap = map<Addr, ObjectState>

  /** A value that is null or refers to an object of the heap. */
  predicate Live(v: Value, heap: Heap) {
    v.Ref? ==> v.addr in heap
  }

  /** Every reference stored in a slot refers to an object of the heap. */
  predicate ValidHeap(heap: Heap) {
    forall a, m :: a in heap && m in heap[a].slots ==> Live(heap[a].slots[m], heap)
  }

  /** `value?.GetType()`. */
  function TypeOfValue(v: Value, heap: Heap): (r: Option<TypeRef>)
    requires Live(v, heap)
    ensures r.None? <==> v.Null?
    ensures v.Ref? ==> r == Some(heap[v.addr].runtimeType.key)
  {
    match v
    case Null => None
    case Ref(a) => Some(heap[a].runtimeType.key)
  }

  /** The outcome of the host's non-generic overload resolution (`Type.GetMethod`), which
      may also throw (for an ambiguous match or a null entry in the argument types). */
  datatype OverloadLookup = Match(found: MethodDesc) | NoMatch | LookupFailed

  /** A completed invocation: the returned value and the heap it left behind. */
  datatype Invoked = Invoked(result: Value, heap: Heap)

  /** The host platform, as uninterpreted oracles:
      - `assignable(target, source)`: `target.IsAssignableFrom(source)` for a non-null source;
      - `getMethod`: `Type.GetMethod(name, flags, null, argumentTypes, null)`;
      - `makeGeneric`: `MakeGenericMethod`, `None` when it throws;
      - `invoke`: `MethodInfo.Invoke`, `None` when it throws;
      - `changeType`: `Convert.ChangeType` with the invariant culture, `None` when it throws. */
  datatype Host = Host(
    assignable: (TypeRef, TypeRef) -> bool,
    getMethod: (TypeDesc, string, seq<Option<TypeRef>>) -> OverloadLookup,
    makeGeneric: (MethodDesc, seq<TypeRef>) -> Option<MethodDesc>,
    invoke: (MethodDesc, Addr, Option<seq<Value>>, Heap) -> Option<Invoked>,
    changeType: (Value, TypeRef, Heap) -> Option<Value>)

  /** `target.IsAssignableFrom(source)`, which is false for a null source. */
  predicate IsAssignableFrom(host: Host, target: TypeRef, source: Option<TypeRef>) {
    source.Some? && host.assignable(target, source.value)
  }
}

=== FILE: wrappers.dfy ===
/** A minimal optional-value datatype standing in for the nullable references of the
    original library (`null` is `None`). */
module Wrappers {
  datatype Option<+T> = None | Some(value: T)
}
